=== FILE: README.md ===
# freebeat-explorer core, modelled in Dafny

This project models the sequential core of a browser music client:

- the **library store**: liked songs, most recently liked first, and user playlists;
- the **playback engine's state machine**: current track, play queue and index, the transport flag, and a play history capped at 50 entries;
- the **catalog client's normalisation** of provider search results into tracks, albums and artists;
- the **song row's logic**: the `m:ss` duration label, the like toggle and the current-track highlight.

The source writes every store mutation as a pure `prev => next` function over arrays. Here each one is a Dafny function over `seq`. Player commands are functions from one `PlayerState` record to the next.

Modules follow the source files:

| module | file | models |
|---|---|---|
| `Music` | `music.dfy` | record shapes of `src/types/music.ts`, id-keyed helpers on track lists |
| `Library` | `library.dfy` | `src/contexts/LibraryContext.tsx` |
| `Player` | `player.dfy` | `src/contexts/PlayerContext.tsx` |
| `Catalog` | `catalog.dfy` | `src/lib/api.ts` |
| `SongCard` | `song_card.dfy` | `src/components/SongCard.tsx` |
| `LibraryPage` | `library_page.dfy` | the blank-name check of `src/pages/Library.tsx` |
| `Seqs`, `Decimal`, `Wrappers` | | `filter`, `slice`, permutations; JavaScript `String(n)` for integers and its inverse; `Option` |

Inputs that the source reads from the environment are parameters:

- `Date.now()` is `stamp`.
- ISO timestamps are `createdAt` and `playedAt`.
- The rendered `Math.random()` fallback id is `placeholder`.
- The random order of `shuffle` is `order`, a permutation of queue positions.
- The audio element is the flag `audioPresent`. `playTrack` does nothing while the element is missing.

Some behaviour of the code worth stating:

- `createPlaylist` does not guarantee unique ids. Two playlists created in the same millisecond get the same id (`Library.CreatePlaylistSameStampCollides`). Ids are fresh only when the clock has moved on (`Library.CreatePlaylistFreshId`).
- `resumeTrack` sets `isPlaying` even when no track is loaded (`Player.ResumeWithoutTrack`).
- The end-of-track event on an empty queue leaves `isPlaying` set (`Player.EndedOnEmptyQueue`).
- `nextTrack`, `previousTrack`, `addToQueue` and `shuffle` update the queue and index even while the audio element is missing. Only the delegated `playTrack` is skipped.

## Model

`Library.IsLiked` models `isLiked` (src/contexts/LibraryContext.tsx:58-60). What it answers is stated through the `Library.AddLikedSong`, `Library.RemoveLikedSong` and `SongCard.HandleLike` rows.

`SongCard.IsCurrentTrack` models `isCurrentTrack` (src/components/SongCard.tsx:18). What it answers is stated through the `SongCard.PlayedTrackIsCurrent` row.

`Player.Initial` is the provider's initial state (src/contexts/PlayerContext.tsx:26-33): no current track, not playing, an empty queue, index 0 and an empty history. The rows for `Player.ResumeWithoutTrack`, `Player.FiftyFirstPlaysEvictFirst`, `SongCard.PlayedTrackIsCurrent` and `Player.ValidStatesAllowPreviousTrack` start from it.

| member | source | states |
|---|---|---|
| Library.AddLikedSong | src/contexts/LibraryContext.tsx:47-52 | afterwards the id is liked, and the liked ids are the old ones plus it; a no-op if already liked, otherwise the track is prepended to the unchanged old list |
| Library.AddLikedSongIdempotent | src/contexts/LibraryContext.tsx:47-52 | liking the same track twice equals liking it once |
| Library.AddLikedSongKeepsDistinct | src/contexts/LibraryContext.tsx:49 | liking keeps the no-duplicate-id invariant |
| Library.RemoveLikedSong | src/contexts/LibraryContext.tsx:54-56 | afterwards the id is not liked; every other id keeps its liked status; exactly the entries with other ids survive; unchanged if the id was absent |
| Library.RemoveLikedSongIdempotent | src/contexts/LibraryContext.tsx:54-56 | unliking twice equals unliking once |
| Library.RemoveLikedSongKeepsDistinct | src/contexts/LibraryContext.tsx:55 | unliking keeps the no-duplicate-id invariant |
| Library.AddThenRemoveLikedSong | src/contexts/LibraryContext.tsx:47-56 | liking a song that was not liked and then unliking it restores the list |
| Music.WithoutIdAppend | src/contexts/LibraryContext.tsx:55 | id filtering distributes over concatenation, so survivors keep their order |
| Music.WithoutIdLength | src/contexts/LibraryContext.tsx:55 | id filtering removes exactly as many entries as carry the id |
| Library.PlaylistId | src/contexts/LibraryContext.tsx:64 | the id is `playlist-` followed by the stamp's decimal text: digits with no leading zero that read back as the stamp |
| Library.CreatePlaylist | src/contexts/LibraryContext.tsx:62-72 | exactly one playlist is appended and the earlier ones are unchanged; it has the given name and description, no tracks and no cover; the returned value is the appended element |
| Library.CreatePlaylistFreshId | src/contexts/LibraryContext.tsx:62-72 | if every existing playlist was created at an earlier stamp, the new id is fresh and ids stay unique |
| Library.CreatePlaylistSameStampCollides | src/contexts/LibraryContext.tsx:64 | two creations in the same millisecond produce duplicate playlist ids |
| Library.DeletePlaylist | src/contexts/LibraryContext.tsx:74-76 | afterwards no playlist has the id; exactly the playlists with other ids survive; unchanged if the id was absent |
| Library.DeletePlaylistIdempotent | src/contexts/LibraryContext.tsx:74-76 | deleting twice equals deleting once |
| Library.DeletePlaylistKeepsOrder | src/contexts/LibraryContext.tsx:75 | deletion distributes over concatenation, so the rest keep their order |
| Library.CreateThenDeletePlaylist | src/contexts/LibraryContext.tsx:62-76 | deleting a playlist just created with a fresh id restores the collection |
| Library.AppendIfAbsent | src/contexts/LibraryContext.tsx:82-83 | the result holds the track id; the old tracks are a prefix; the track is appended only when its id was absent; the id's count becomes 1 or stays as it was |
| Library.AddTrackToPlaylist | src/contexts/LibraryContext.tsx:78-88 | only the tracks of playlists with the target id change, and they change by AppendIfAbsent; other playlists and all other fields are unchanged; an unknown playlist id changes nothing |
| Library.AddTrackToPlaylistIdempotent | src/contexts/LibraryContext.tsx:78-88 | adding the same track twice equals adding it once |
| Library.AddTrackToPlaylistTwiceOnce | src/contexts/LibraryContext.tsx:78-88 | after two adds to a playlist with distinct ids, the track id occurs exactly once |
| Library.AddTrackToPlaylistKeepsDistinct | src/contexts/LibraryContext.tsx:82-83 | adding keeps every playlist free of duplicate track ids |
| Library.RemoveTrackFromPlaylist | src/contexts/LibraryContext.tsx:90-99 | target playlists lose exactly the entries with that track id; name, description, cover and `createdAt` are kept; other playlists are unchanged; an unknown playlist id changes nothing |
| Library.RemoveTrackFromPlaylistIdempotent | src/contexts/LibraryContext.tsx:90-99 | removing twice equals removing once |
| Library.RemoveTrackFromPlaylistKeepsDistinct | src/contexts/LibraryContext.tsx:94 | removal keeps every playlist free of duplicate track ids |
| Library.AddThenRemoveTrack | src/contexts/LibraryContext.tsx:78-99 | adding a track a playlist lacked and then removing it restores the collection |
| Player.MountAudio | src/contexts/PlayerContext.tsx:38-42 | the audio element becomes present and nothing else changes |
| Player.PlayTrack | src/contexts/PlayerContext.tsx:69-82 | with audio: the track becomes current and playing; the queue and index are kept; history length is min(old + 1, 50) with the new entry first and the old entries after it in order; without audio: no change; validity is kept |
| Player.PlayAllHistory | src/contexts/PlayerContext.tsx:78-81 | after a run of plays, the history tracks are the played tracks newest first, then the older history, cut to 50 |
| Player.FiftyFirstPlaysEvictFirst | src/contexts/PlayerContext.tsx:78-81 | 51 distinct plays from a fresh start leave exactly 50 entries, newest first, and none for the first track |
| Player.PauseTrack | src/contexts/PlayerContext.tsx:84-87 | playback stops; nothing else changes |
| Player.ResumeTrack | src/contexts/PlayerContext.tsx:89-92 | the playing flag is raised; nothing else changes |
| Player.PauseResumeRoundTrip | src/contexts/PlayerContext.tsx:84-92 | pause then resume of a playing state, or resume then pause of a paused one, is the identity |
| Player.ResumeWithoutTrack | src/contexts/PlayerContext.tsx:89-92 | resuming with nothing loaded still reports playing |
| Player.NextTrack | src/contexts/PlayerContext.tsx:94-99 | no-op on an empty queue; otherwise the index is (old + 1) mod length, so the last position wraps to 0; with audio the queue entry there becomes current and playing, heads the history, the older entries shift down by one under the cap and nothing else changes; without audio only the index moves; valid states stay valid |
| Player.PreviousTrack | src/contexts/PlayerContext.tsx:101-106 | no-op on an empty queue; otherwise index 0 wraps to the last position and any other index decrements; with audio that entry becomes current and playing, heads the history, the older entries shift down by one under the cap and nothing else changes; without audio only the index moves, for any index; valid states stay valid |
| Player.NextThenPrevious | src/contexts/PlayerContext.tsx:94-106 | next then previous returns to the original index and track |
| Player.PreviousThenNext | src/contexts/PlayerContext.tsx:94-106 | previous then next returns to the original index and track |
| Player.EndedOnEmptyQueue | src/contexts/PlayerContext.tsx:54-56 | the end-of-track event on an empty queue leaves the playing flag raised |
| Player.AddToQueue | src/contexts/PlayerContext.tsx:122-126 | the queue is replaced and the index set to the start; with audio, that track plays, heads the history, the older entries shift down by one and nothing else changes; without audio only queue and index change; an in-range start keeps validity |
| Player.Shuffle | src/contexts/PlayerContext.tsx:128-134 | no-op on an empty queue; otherwise the new queue is the old one reordered by the permutation, with the same multiset; the index is 0; with audio, the new first track plays, heads the history, the older entries shift down by one and nothing else changes; without audio only queue and index change |
| Seqs.PermutePreservesMultiset | src/contexts/PlayerContext.tsx:130 | reordering by any permutation of positions keeps exactly the same elements and multiplicities |
| Decimal.ToNatFromNat | src/lib/api.ts:8 | the decimal text `String(n)` reads back as `n` |
| Decimal.FromNatToNat | src/lib/api.ts:8 | every digit string without a leading zero is `String` of the number it reads as, so `String(n)` is the only such text for `n` |
| Decimal.CanonicalUnique | src/lib/api.ts:8 | two digit strings without leading zeros that read as the same number are equal |
| Player.ValidStatesAllowPreviousTrack | src/contexts/PlayerContext.tsx:38-42 | the state after the audio element is created is valid, and a valid state meets `previousTrack`'s precondition |
| Catalog.IdOr | src/lib/api.ts:8 | the id is the decimal text of the first non-zero numeric id (no leading zero, reads back as that number), else the placeholder |
| Catalog.ReplaceFirst | src/lib/api.ts:12 | only the first occurrence of the pattern is replaced; without one, the text is unchanged (for a replacement without `$` patterns, as `300x300` is) |
| Catalog.UpgradeArtworkShape | src/lib/api.ts:12 | the artwork upgrade keeps the length and every character outside the first `100x100` window, which becomes `300x300` |
| Catalog.UpgradedArtwork | src/lib/api.ts:12 | the upgraded URL is non-empty exactly when the 100px URL is |
| Catalog.TransformTrack | src/lib/api.ts:6-17 | fallbacks treat empty text and 0 as missing: id → decimal text of trackId, else collectionId, with no leading zero, else the placeholder; name → trackName, collectionName, `Unknown`; artist → `Unknown Artist`; album → `Unknown Album`; artwork → upgraded 100px, 60px, empty; preview → empty; duration → 30000; release date passes through; the result is always displayable |
| Catalog.TransformAlbum | src/lib/api.ts:70-77 | album fallbacks: upgraded artwork with no 60px fallback; `Unknown Album` / `Unknown Artist` names; the collection id's decimal text with no leading zero, else the placeholder; release date and track count pass through |
| Catalog.TransformArtist | src/lib/api.ts:47-51 | artist fallbacks: `Unknown Artist`; the image is the 100px URL unchanged, else empty; the artist id's decimal text with no leading zero, else the placeholder |
| Catalog.AlbumTracksQuery | src/lib/api.ts:85-87 | a song search limited to 15 results whose term is the album name, one space, then the artist name |
| SongCard.DurationFields | src/components/SongCard.tsx:96 | seconds are below 60, and minutes*60000 + seconds*1000 <= ms < that + 1000 |
| SongCard.DurationFieldsUnique | src/components/SongCard.tsx:96 | that bracketing determines the minutes and seconds uniquely |
| SongCard.SecondsLabel | src/components/SongCard.tsx:96 | the zero-padded seconds are exactly two digits that read back as the seconds |
| SongCard.FormatDuration | src/components/SongCard.tsx:96 | the label is the minutes' decimal text (no leading zero), a colon, then two digits; they read back as the minutes and seconds fields |
| SongCard.DefaultDurationLabel | src/components/SongCard.tsx:96 | the 30000 ms default renders as `0:30` |
| SongCard.HandleLike | src/components/SongCard.tsx:24-31 | flips whether the track's id is liked: a song not yet liked is prepended to the unchanged list, a liked one is removed with the others kept in order; every other id's status is kept, and ids stay distinct |
| SongCard.HandleLikeTwice | src/components/SongCard.tsx:24-31 | pressing the heart twice on a song that was not liked restores the list |
| SongCard.PlayedTrackIsCurrent | src/components/SongCard.tsx:18 | no row is highlighted initially; after a play, a row is highlighted exactly when its id is the played track's id |
| LibraryPage.TrimEmptyIffBlank | src/pages/Library.tsx:24 | trimming leaves nothing exactly when every character is whitespace or a line terminator |
| LibraryPage.HandleCreatePlaylist | src/pages/Library.tsx:23-34 | a blank name creates nothing; any other name, untrimmed, appends one empty playlist with the typed description, the clock's id and timestamp, and no cover |

## Left out

- Loading from and saving to local storage, and the `JSON.parse` of stored data. This is durable-storage I/O. The source does not guard against corrupt stored values, and stored playlists are not checked for duplicate ids.
- The audio element's media I/O, event-listener registration and re-registration, and the asynchronous `ended` handler. The handler's effect is a plain `Player.NextTrack` call. Races between it and user commands are not modelled.
- `volume`, `progress`, `duration`, `setVolume`, `seekTo` and the player bar's `formatTime`. These are floating-point values driven by the audio element.
- The random comparator sort in `shuffle` is replaced by a permutation parameter. Any permutation is accepted; the sort's bias is not modelled.
- Math.random id fallbacks are opaque placeholder strings. `getTrendingTracks`' random artist choice is not modelled.
- `Date.now()` and ISO timestamps are parameters.
- `fetch`, URL building and encoding, the try/catch fallbacks, and the `results?.map(...) || []` wrapper of `searchTracks`, `searchArtists` and `searchAlbums`. This is network I/O; only the per-item mappers and the `getAlbumTracks` query are modelled.
- React state batching and stale closures. Commands are modelled as sequential state transitions.
- Pages other than the playlist-name check, the sidebar, playlist card, layout and player bar. These are presentation code.
- Catalog.IdOr: numeric fields are natural numbers. JavaScript's exponent rendering of numbers of 1e21 and above, and non-integer or negative values, are not modelled.
- Catalog.ReplaceFirst: the replacement is inserted literally. JavaScript expands `$&`, `$$`, `` $` `` and `$'` in a replacement string; the only replacement used, `300x300`, contains no `$`.
- SongCard.FormatDuration: durations are natural numbers. Non-integer or negative millisecond values, which only corrupt stored data could supply, are not modelled.
- Player.PreviousTrack requires `currentIndex <= |queue|` on a non-empty queue while the audio element exists. The source would otherwise hand `undefined` to `playTrack`, which fails reading its preview URL; without the audio element `playTrack` returns first and any index is accepted. The state after the audio element is created is valid, valid states meet the requirement (`Player.ValidStatesAllowPreviousTrack`), and every command keeps validity, `Player.AddToQueue` when its start index is in range.
- Player.AddToQueue requires an in-range start index while the audio element exists. The source would otherwise pass `undefined` to `playTrack` and fail.

=== FILE: catalog.dfy ===
/** The catalog client's normalisation of provider results into tracks,
    albums and artists. A field the response lacks is `None`; the source's
    `||` defaulting also treats an empty string and the number 0 as missing.
    Where the source falls back to `Math.random()` for an id, the rendered
    random number is a `placeholder` parameter. */
module Catalog {
  import opened Wrappers
  import opened Decimal
  import opened Music

  /** One element of the provider's `results` array. */
  datatype RawItem = RawItem(
    trackId: Option<nat>,
    collectionId: Option<nat>,
    artistId: Option<nat>,
    trackName: Option<string>,
    collectionName: Option<string>,
    artistName: Option<string>,
    artworkUrl100: Option<string>,
    artworkUrl60: Option<string>,
    previewUrl: Option<string>,
    releaseDate: Option<string>,
    trackTimeMillis: Option<nat>,
    trackCount: Option<nat>)

  /** Duration assumed for a result without a usable `trackTimeMillis`. */
  const DefaultDuration: nat := 30000

  const SmallArtwork: string := "100x100"
  const LargeArtwork: string := "300x300"

  predicate TruthyText(x: Option<string>) {
    x.Some? && x.value != ""
  }

  predicate TruthyNumber(x: Option<nat>) {
    x.Some? && x.value != 0
  }

  /** `x || fallback` for a text field. */
  function TextOr(x: Option<string>, fallback: string): string {
    if TruthyText(x) then x.value else fallback
  }

  /** `String(x || y || placeholder)` for two numeric id fields. */
  function IdOr(x: Option<nat>, y: Option<nat>, placeholder: string): (id: string)
    ensures TruthyNumber(x) ==> Canonical(id) && ToNat(id) == x.value
    ensures !TruthyNumber(x) && TruthyNumber(y) ==> Canonical(id) && ToNat(id) == y.value
    ensures !TruthyNumber(x) && !TruthyNumber(y) ==> id == placeholder
  {
    if TruthyNumber(x) then ToNatFromNat(x.value); FromNat(x.value)
    else if TruthyNumber(y) then ToNatFromNat(y.value); FromNat(y.value)
    else placeholder
  }

  // ------------------------------------------------------ first-occurrence replace

  predicate OccursAt(s: string, pattern: string, i: nat) {
    i + |pattern| <= |s| && s[i..i + |pattern|] == pattern
  }

  /** `i` is where `s.indexOf(pattern)` finds `pattern`. */
  predicate IsFirstOccurrence(s: string, pattern: string, i: nat) {
    OccursAt(s, pattern, i) && forall j: nat :: j < i ==> !OccursAt(s, pattern, j)
  }

  /** `s.indexOf(pattern, from)`, or None when there is no occurrence at or after `from`. */
  function IndexOfFrom(s: string, pattern: string, from: nat): (r: Option<nat>)
    ensures r.Some? ==>
      && from <= r.value
      && OccursAt(s, pattern, r.value)
      && forall j: nat :: from <= j < r.value ==> !OccursAt(s, pattern, j)
    ensures r.None? ==> forall j: nat :: from <= j ==> !OccursAt(s, pattern, j)
    decreases |s| - from
  {
    if from + |pattern| > |s| then None
    else if s[from..from + |pattern|] == pattern then Some(from)
    else IndexOfFrom(s, pattern, from + 1)
  }

  function IndexOf(s: string, pattern: string): (r: Option<nat>)
    ensures r.Some? ==> IsFirstOccurrence(s, pattern, r.value)
    ensures r.None? ==> forall j: nat :: !OccursAt(s, pattern, j)
  {
    IndexOfFrom(s, pattern, 0)
  }

  /** `s.replace(pattern, replacement)` with a string pattern and a replacement
      free of `$` substitution patterns: only the first occurrence is replaced. */
  function ReplaceFirst(s: string, pattern: string, replacement: string): (r: string)
    ensures forall i: nat :: IsFirstOccurrence(s, pattern, i) ==>
      r == s[..i] + replacement + s[i + |pattern|..]
    ensures (forall j: nat :: !OccursAt(s, pattern, j)) ==> r == s
  {
    match IndexOf(s, pattern)
    case None => s
    case Some(i) =>
      assert forall k: nat :: IsFirstOccurrence(s, pattern, k) ==> k == i;
      s[..i] + replacement + s[i + |pattern|..]
  }

  /** The upgrade of a 100px artwork URL to its 300px variant. */
  function UpgradeArtwork(url: string): string {
    ReplaceFirst(url, SmallArtwork, LargeArtwork)
  }

  /** The upgrade keeps the length and every character outside the first
      `100x100` window, which it rewrites to `300x300`; without such a window
      the URL is unchanged. */
  lemma UpgradeArtworkShape(url: string)
    ensures |UpgradeArtwork(url)| == |url|
    ensures forall i: nat :: IsFirstOccurrence(url, SmallArtwork, i) ==>
      && UpgradeArtwork(url)[i..i + 7] == LargeArtwork
      && forall j :: 0 <= j < |url| && !(i <= j < i + 7) ==> UpgradeArtwork(url)[j] == url[j]
    ensures (forall j: nat :: !OccursAt(url, SmallArtwork, j)) ==> UpgradeArtwork(url) == url
  {
    var r := UpgradeArtwork(url);
    match IndexOf(url, SmallArtwork)
    case None =>
    case Some(i) =>
      assert r == url[..i] + LargeArtwork + url[i + 7..];
      forall k: nat | IsFirstOccurrence(url, SmallArtwork, k)
        ensures r[k..k + 7] == LargeArtwork
        ensures forall j :: 0 <= j < |url| && !(k <= j < k + 7) ==> r[j] == url[j]
      {
        assert k == i;
      }
  }

  /** `item.artworkUrl100?.replace("100x100", "300x300") || …`: the upgraded
      URL when there is one and it is non-empty. */
  function UpgradedArtwork(raw: Option<string>): (r: Option<string>)
    ensures TruthyText(raw) <==> TruthyText(r)
    ensures TruthyText(raw) ==> r.value == UpgradeArtwork(raw.value) && |r.value| == |raw.value|
  {
    match raw
    case None => None
    case Some(url) => UpgradeArtworkShape(url); Some(UpgradeArtwork(url))
  }

  // ---------------------------------------------------------------- the mappers

  /** A track as the normaliser always produces it: every text field the
      interface shows is non-empty and the duration is positive. */
  predicate Displayable(t: Track) {
    t.name != "" && t.artistName != "" && t.albumName != "" && t.duration > 0
  }

  /** `transformItunesTrack`. */
  function TransformTrack(item: RawItem, placeholder: string): (t: Track)
    ensures Displayable(t)
    ensures TruthyNumber(item.trackId) ==> Canonical(t.id) && ToNat(t.id) == item.trackId.value
    ensures !TruthyNumber(item.trackId) && TruthyNumber(item.collectionId) ==>
      Canonical(t.id) && ToNat(t.id) == item.collectionId.value
    ensures !TruthyNumber(item.trackId) && !TruthyNumber(item.collectionId) ==> t.id == placeholder
    ensures t.name == (if TruthyText(item.trackName) then item.trackName.value
                       else if TruthyText(item.collectionName) then item.collectionName.value
                       else "Unknown")
    ensures t.artistName == (if TruthyText(item.artistName) then item.artistName.value else "Unknown Artist")
    ensures t.albumName == (if TruthyText(item.collectionName) then item.collectionName.value else "Unknown Album")
    ensures TruthyText(item.artworkUrl100) ==>
      t.artworkUrl == UpgradeArtwork(item.artworkUrl100.value) && |t.artworkUrl| == |item.artworkUrl100.value|
    ensures !TruthyText(item.artworkUrl100) ==>
      t.artworkUrl == (if TruthyText(item.artworkUrl60) then item.artworkUrl60.value else "")
    ensures t.previewUrl == (if TruthyText(item.previewUrl) then item.previewUrl.value else "")
    ensures t.duration == (if TruthyNumber(item.trackTimeMillis) then item.trackTimeMillis.value else DefaultDuration)
    ensures t.releaseDate == item.releaseDate
  {
    Track(
      id := IdOr(item.trackId, item.collectionId, placeholder),
      name := TextOr(item.trackName, TextOr(item.collectionName, "Unknown")),
      artistName := TextOr(item.artistName, "Unknown Artist"),
      albumName := TextOr(item.collectionName, "Unknown Album"),
      artworkUrl := TextOr(UpgradedArtwork(item.artworkUrl100), TextOr(item.artworkUrl60, "")),
      previewUrl := TextOr(item.previewUrl, ""),
      duration := if TruthyNumber(item.trackTimeMillis) then item.trackTimeMillis.value else DefaultDuration,
      releaseDate := item.releaseDate)
  }

  /** The album mapper of `searchAlbums`: the artwork is upgraded the same way
      but has no 60px fallback. */
  function TransformAlbum(item: RawItem, placeholder: string): (a: Album)
    ensures a.name != "" && a.artistName != ""
    ensures TruthyNumber(item.collectionId) ==> Canonical(a.id) && ToNat(a.id) == item.collectionId.value
    ensures !TruthyNumber(item.collectionId) ==> a.id == placeholder
    ensures a.name == (if TruthyText(item.collectionName) then item.collectionName.value else "Unknown Album")
    ensures a.artistName == (if TruthyText(item.artistName) then item.artistName.value else "Unknown Artist")
    ensures TruthyText(item.artworkUrl100) ==>
      a.artworkUrl == UpgradeArtwork(item.artworkUrl100.value) && |a.artworkUrl| == |item.artworkUrl100.value|
    ensures !TruthyText(item.artworkUrl100) ==> a.artworkUrl == ""
    ensures a.releaseDate == item.releaseDate && a.trackCount == item.trackCount
  {
    Album(
      id := IdOr(item.collectionId, None, placeholder),
      name := TextOr(item.collectionName, "Unknown Album"),
      artistName := TextOr(item.artistName, "Unknown Artist"),
      artworkUrl := TextOr(UpgradedArtwork(item.artworkUrl100), ""),
      releaseDate := item.releaseDate,
      trackCount := item.trackCount)
  }

  /** The artist mapper of `searchArtists`: the image is the 100px artwork as
      given, with no upgrade. */
  function TransformArtist(item: RawItem, placeholder: string): (a: Artist)
    ensures a.name != ""
    ensures TruthyNumber(item.artistId) ==> Canonical(a.id) && ToNat(a.id) == item.artistId.value
    ensures !TruthyNumber(item.artistId) ==> a.id == placeholder
    ensures a.name == (if TruthyText(item.artistName) then item.artistName.value else "Unknown Artist")
    ensures a.imageUrl.Some?
    ensures TruthyText(item.artworkUrl100) ==> a.imageUrl.value == item.artworkUrl100.value
    ensures !TruthyText(item.artworkUrl100) ==> a.imageUrl.value == ""
  {
    Artist(
      id := IdOr(item.artistId, None, placeholder),
      name := TextOr(item.artistName, "Unknown Artist"),
      imageUrl := Some(TextOr(item.artworkUrl100, "")))
  }

  // ------------------------------------------------------------------- queries

  datatype Entity = SongEntity | MusicArtistEntity | AlbumEntity

  /** The query parameters of one catalog search. */
  datatype SearchRequest = SearchRequest(term: string, entity: Entity, limit: nat)

  /** Result count `getAlbumTracks` asks for. */
  const AlbumTracksLimit: nat := 15

  /** `getAlbumTracks`: a song search for the album name and artist name
      joined by one space. */
  function AlbumTracksQuery(albumName: string, artistName: string): (q: SearchRequest)
    ensures q.entity == SongEntity && q.limit == AlbumTracksLimit
    ensures |q.term| == |albumName| + 1 + |artistName|
    ensures q.term[..|albumName|] == albumName
    ensures q.term[|albumName|] == ' '
    ensures q.term[|albumName| + 1..] == artistName
  {
    SearchRequest(albumName + " " + artistName, SongEntity, AlbumTracksLimit)
  }
}

=== FILE: decimal.dfy ===
/** Decimal text of non-negative integers, as JavaScript's `String(n)` renders
    an integer-valued number, and the inverse reading of a digit string. */
module Decimal {

  predicate IsDigit(c: char) {
    '0' <= c <= '9'
  }

  predicate AllDigits(s: string) {
    forall i :: 0 <= i < |s| ==> IsDigit(s[i])
  }

  /** The digit strings `String(n)` can produce: non-empty, with no leading zero. */
  predicate Canonical(s: string) {
    1 <= |s| && AllDigits(s) && (s[0] == '0' ==> |s| == 1)
  }

  function DigitValue(c: char): (d: nat)
    requires IsDigit(c)
    ensures d < 10
  {
    (c as int) - ('0' as int)
  }

  function DigitChar(d: nat): (c: char)
    requires d < 10
    ensures IsDigit(c) && DigitValue(c) == d
  {
    (('0' as int) + d) as char
  }

  /** The shortest decimal rendering of `n`: digits only, no leading zero. */
  function FromNat(n: nat): (s: string)
    ensures Canonical(s)
    ensures s[0] == '0' ==> n == 0
    ensures n < 10 <==> |s| == 1
  {
    if n < 10 then [DigitChar(n)] else FromNat(n / 10) + [DigitChar(n % 10)]
  }

  /** Reads a string of decimal digits as a number (the empty string reads as 0). */
  function ToNat(s: string): nat
    requires AllDigits(s)
  {
    if |s| == 0 then 0 else 10 * ToNat(s[..|s| - 1]) + DigitValue(s[|s| - 1])
  }

  lemma {:induction false} ToNatFromNat(n: nat)
    ensures ToNat(FromNat(n)) == n
  {
    if n >= 10 {
      var s := FromNat(n);
      assert s[..|s| - 1] == FromNat(n / 10);
      ToNatFromNat(n / 10);
    }
  }

  lemma FromNatInjective(a: nat, b: nat)
    ensures FromNat(a) == FromNat(b) <==> a == b
  {
    ToNatFromNat(a);
    ToNatFromNat(b);
  }

  /** A digit string that does not start with zero reads as a positive number. */
  lemma {:induction false} LeadingDigitPositive(s: string)
    requires 1 <= |s| && AllDigits(s) && s[0] != '0'
    ensures ToNat(s) >= 1
  {
    if |s| > 1 {
      LeadingDigitPositive(s[..|s| - 1]);
    }
  }

  /** Every canonical digit string is the rendering of the number it reads as. */
  lemma {:induction false} FromNatToNat(s: string)
    requires Canonical(s)
    ensures FromNat(ToNat(s)) == s
  {
    var n := ToNat(s);
    var d := DigitValue(s[|s| - 1]);
    if |s| == 1 {
      assert ToNat(s[..0]) == 0;
      assert n == d;
    } else {
      var p := s[..|s| - 1];
      assert Canonical(p) && p[0] != '0';
      LeadingDigitPositive(p);
      assert n == 10 * ToNat(p) + d;
      assert n / 10 == ToNat(p) && n % 10 == d;
      FromNatToNat(p);
      assert s == p + [s[|s| - 1]];
    }
  }

  /** Two canonical digit strings that read as the same number are the same text. */
  lemma CanonicalUnique(a: string, b: string)
    requires Canonical(a) && Canonical(b) && ToNat(a) == ToNat(b)
    ensures a == b
  {
    FromNatToNat(a);
    FromNatToNat(b);
  }
}

=== FILE: library.dfy ===
/** The library store: liked songs (most recently liked first) and the user's
    playlists. Every mutation is a pure function from the previous array to
    the next one; persisting the arrays is not part of this model. */
module Library {
  import opened Wrappers
  import opened Decimal
  import opened Seqs
  import opened Music

  // ---------------------------------------------------------------- liked songs

  predicate IsLiked(liked: seq<Track>, id: string) {
    HasId(liked, id)
  }

  /** Prepends `track` unless a song with its id is already liked. */
  function AddLikedSong(liked: seq<Track>, track: Track): (r: seq<Track>)
    ensures IsLiked(r, track.id)
    ensures forall id :: IsLiked(r, id) <==> IsLiked(liked, id) || id == track.id
    ensures IsLiked(liked, track.id) ==> r == liked
    ensures !IsLiked(liked, track.id) ==> |r| == |liked| + 1 && r[0] == track && r[1..] == liked
  {
    if IsLiked(liked, track.id) then liked else [track] + liked
  }

  /** Drops every liked song carrying `id`, keeping the others in order. */
  function RemoveLikedSong(liked: seq<Track>, id: string): (r: seq<Track>)
    ensures !IsLiked(r, id)
    ensures forall other :: other != id ==> (IsLiked(r, other) <==> IsLiked(liked, other))
    ensures forall t :: t in r <==> t in liked && t.id != id
    ensures !IsLiked(liked, id) ==> r == liked
  {
    WithoutId(liked, id)
  }

  lemma AddLikedSongIdempotent(liked: seq<Track>, track: Track)
    ensures AddLikedSong(AddLikedSong(liked, track), track) == AddLikedSong(liked, track)
  {
  }

  lemma RemoveLikedSongIdempotent(liked: seq<Track>, id: string)
    ensures RemoveLikedSong(RemoveLikedSong(liked, id), id) == RemoveLikedSong(liked, id)
  {
  }

  /** Liking a song that was not liked and then unliking it restores the list. */
  lemma AddThenRemoveLikedSong(liked: seq<Track>, track: Track)
    requires !IsLiked(liked, track.id)
    ensures RemoveLikedSong(AddLikedSong(liked, track), track.id) == liked
  {
    WithoutIdAppend([track], liked, track.id);
  }

  lemma AddLikedSongKeepsDistinct(liked: seq<Track>, track: Track)
    requires DistinctIds(liked)
    ensures DistinctIds(AddLikedSong(liked, track))
  {
    if !IsLiked(liked, track.id) {
      var r := [track] + liked;
      forall i, j | 0 <= i < j < |r| ensures r[i].id != r[j].id {
        assert r[j] == liked[j - 1];
        if i == 0 {
          assert r[j] in liked;
        }
      }
    }
  }

  lemma RemoveLikedSongKeepsDistinct(liked: seq<Track>, id: string)
    requires DistinctIds(liked)
    ensures DistinctIds(RemoveLikedSong(liked, id))
  {
    WithoutIdKeepsDistinct(liked, id);
  }

  // ------------------------------------------------------------------ playlists

  predicate HasPlaylist(playlists: seq<Playlist>, id: string) {
    exists p :: p in playlists && p.id == id
  }

  predicate UniquePlaylistIds(playlists: seq<Playlist>) {
    forall i, j :: 0 <= i < j < |playlists| ==> playlists[i].id != playlists[j].id
  }

  /** Every playlist holds each track id at most once. */
  predicate PlaylistTracksDistinct(playlists: seq<Playlist>) {
    forall p :: p in playlists ==> DistinctIds(p.tracks)
  }

  /** The id a playlist gets when created at clock reading `stamp` (milliseconds). */
  function PlaylistId(stamp: nat): (id: string)
    ensures |id| > 9 && id[..9] == "playlist-" && Canonical(id[9..])
    ensures ToNat(id[9..]) == stamp
  {
    ToNatFromNat(stamp);
    "playlist-" + FromNat(stamp)
  }

  datatype Created = Created(playlists: seq<Playlist>, playlist: Playlist)

  /** Appends a new empty playlist; `stamp` and `createdAt` are the clock
      readings the source takes at the call. */
  function CreatePlaylist(playlists: seq<Playlist>, name: string, description: Option<string>,
                          stamp: nat, createdAt: string): (r: Created)
    ensures |r.playlists| == |playlists| + 1
    ensures r.playlists[..|playlists|] == playlists
    ensures r.playlists[|playlists|] == r.playlist
    ensures r.playlist.id == PlaylistId(stamp) && HasPlaylist(r.playlists, r.playlist.id)
    ensures r.playlist.name == name && r.playlist.description == description
    ensures r.playlist.tracks == [] && r.playlist.coverUrl == None
    ensures r.playlist.createdAt == createdAt
  {
    var p := Playlist(PlaylistId(stamp), name, description, [], None, createdAt);
    Created(playlists + [p], p)
  }

  /** When every existing playlist was created at an earlier clock reading, the
      new id is fresh and the ids stay unique. */
  lemma CreatePlaylistFreshId(playlists: seq<Playlist>, stamps: seq<nat>, name: string,
                              description: Option<string>, stamp: nat, createdAt: string)
    requires UniquePlaylistIds(playlists)
    requires |stamps| == |playlists|
    requires forall i :: 0 <= i < |playlists| ==> playlists[i].id == PlaylistId(stamps[i]) && stamps[i] < stamp
    ensures !HasPlaylist(playlists, PlaylistId(stamp))
    ensures UniquePlaylistIds(CreatePlaylist(playlists, name, description, stamp, createdAt).playlists)
  {
    forall i | 0 <= i < |playlists| ensures playlists[i].id != PlaylistId(stamp) {
      FromNatInjective(stamps[i], stamp);
    }
  }

  /** Two playlists created within the same clock millisecond share an id. */
  lemma CreatePlaylistSameStampCollides(playlists: seq<Playlist>, name1: string, name2: string,
                                        description: Option<string>, stamp: nat, createdAt: string)
    ensures var first := CreatePlaylist(playlists, name1, description, stamp, createdAt);
      var second := CreatePlaylist(first.playlists, name2, description, stamp, createdAt);
      !UniquePlaylistIds(second.playlists)
  {
    var first := CreatePlaylist(playlists, name1, description, stamp, createdAt);
    var second := CreatePlaylist(first.playlists, name2, description, stamp, createdAt);
    assert second.playlists[|playlists|].id == second.playlists[|playlists| + 1].id;
  }

  /** `playlists.filter(p => p.id !== id)`. */
  function DeletePlaylist(playlists: seq<Playlist>, id: string): (r: seq<Playlist>)
    ensures !HasPlaylist(r, id)
    ensures forall p :: p in r <==> p in playlists && p.id != id
    ensures !HasPlaylist(playlists, id) ==> r == playlists
  {
    Filter(playlists, (p: Playlist) => p.id != id)
  }

  lemma DeletePlaylistIdempotent(playlists: seq<Playlist>, id: string)
    ensures DeletePlaylist(DeletePlaylist(playlists, id), id) == DeletePlaylist(playlists, id)
  {
  }

  /** The surviving playlists keep their relative order. */
  lemma DeletePlaylistKeepsOrder(a: seq<Playlist>, b: seq<Playlist>, id: string)
    ensures DeletePlaylist(a + b, id) == DeletePlaylist(a, id) + DeletePlaylist(b, id)
  {
    FilterAppend(a, b, (p: Playlist) => p.id != id);
  }

  /** Deleting a freshly created playlist restores the collection. */
  lemma CreateThenDeletePlaylist(playlists: seq<Playlist>, name: string, description: Option<string>,
                                 stamp: nat, createdAt: string)
    requires !HasPlaylist(playlists, PlaylistId(stamp))
    ensures var c := CreatePlaylist(playlists, name, description, stamp, createdAt);
      DeletePlaylist(c.playlists, c.playlist.id) == playlists
  {
    var c := CreatePlaylist(playlists, name, description, stamp, createdAt);
    DeletePlaylistKeepsOrder(playlists, [c.playlist], c.playlist.id);
  }

  /** `tracks.some(t => t.id === track.id) ? tracks : [...tracks, track]`. */
  function AppendIfAbsent(tracks: seq<Track>, track: Track): (r: seq<Track>)
    ensures HasId(r, track.id)
    ensures forall id :: HasId(r, id) <==> HasId(tracks, id) || id == track.id
    ensures |tracks| <= |r| <= |tracks| + 1 && r[..|tracks|] == tracks
    ensures HasId(tracks, track.id) ==> r == tracks
    ensures !HasId(tracks, track.id) ==> r[|tracks|] == track
    ensures CountId(r, track.id) == if HasId(tracks, track.id) then CountId(tracks, track.id) else 1
  {
    if HasId(tracks, track.id) then tracks
    else
      CountIdPositive(tracks, track.id);
      CountIdAppend(tracks, [track], track.id);
      tracks + [track]
  }

  /** Adds `track` to the end of every playlist whose id is `playlistId`,
      unless that playlist already holds the track id. */
  function AddTrackToPlaylist(playlists: seq<Playlist>, playlistId: string, track: Track): (r: seq<Playlist>)
    ensures |r| == |playlists|
    ensures forall i :: 0 <= i < |r| ==> r[i].(tracks := playlists[i].tracks) == playlists[i]
    ensures forall i :: 0 <= i < |r| && playlists[i].id != playlistId ==> r[i] == playlists[i]
    ensures forall i :: 0 <= i < |r| && playlists[i].id == playlistId ==>
      r[i].tracks == AppendIfAbsent(playlists[i].tracks, track)
    ensures !HasPlaylist(playlists, playlistId) ==> r == playlists
  {
    seq(|playlists|, i requires 0 <= i < |playlists| =>
      if playlists[i].id == playlistId
      then playlists[i].(tracks := AppendIfAbsent(playlists[i].tracks, track))
      else playlists[i])
  }

  lemma AddTrackToPlaylistIdempotent(playlists: seq<Playlist>, playlistId: string, track: Track)
    ensures var once := AddTrackToPlaylist(playlists, playlistId, track);
      AddTrackToPlaylist(once, playlistId, track) == once
  {
  }

  /** Adding a track, once or twice, to a playlist with distinct ids leaves
      exactly one entry with that track's id. */
  lemma AddTrackToPlaylistTwiceOnce(playlists: seq<Playlist>, playlistId: string, track: Track, i: nat)
    requires i < |playlists| && playlists[i].id == playlistId
    requires DistinctIds(playlists[i].tracks)
    ensures var twice := AddTrackToPlaylist(AddTrackToPlaylist(playlists, playlistId, track), playlistId, track);
      CountId(twice[i].tracks, track.id) == 1
  {
    AddTrackToPlaylistIdempotent(playlists, playlistId, track);
    DistinctCountAtMostOne(playlists[i].tracks, track.id);
    CountIdPositive(playlists[i].tracks, track.id);
  }

  lemma AppendIfAbsentKeepsDistinct(tracks: seq<Track>, track: Track)
    requires DistinctIds(tracks)
    ensures DistinctIds(AppendIfAbsent(tracks, track))
  {
    if !HasId(tracks, track.id) {
      var r := tracks + [track];
      forall i, j | 0 <= i < j < |r| ensures r[i].id != r[j].id {
        if j == |tracks| {
          assert r[i] in tracks;
        }
      }
    }
  }

  lemma AddTrackToPlaylistKeepsDistinct(playlists: seq<Playlist>, playlistId: string, track: Track)
    requires PlaylistTracksDistinct(playlists)
    ensures PlaylistTracksDistinct(AddTrackToPlaylist(playlists, playlistId, track))
  {
    var r := AddTrackToPlaylist(playlists, playlistId, track);
    forall p | p in r ensures DistinctIds(p.tracks) {
      var i :| 0 <= i < |r| && r[i] == p;
      assert playlists[i] in playlists;
      if playlists[i].id == playlistId {
        AppendIfAbsentKeepsDistinct(playlists[i].tracks, track);
      }
    }
  }

  /** Filters `trackId` out of every playlist whose id is `playlistId`. */
  function RemoveTrackFromPlaylist(playlists: seq<Playlist>, playlistId: string, trackId: string): (r: seq<Playlist>)
    ensures |r| == |playlists|
    ensures forall i :: 0 <= i < |r| ==> r[i].(tracks := playlists[i].tracks) == playlists[i]
    ensures forall i :: 0 <= i < |r| && playlists[i].id != playlistId ==> r[i] == playlists[i]
    ensures forall i :: 0 <= i < |r| && playlists[i].id == playlistId ==>
      !HasId(r[i].tracks, trackId) && r[i].tracks == WithoutId(playlists[i].tracks, trackId)
    ensures !HasPlaylist(playlists, playlistId) ==> r == playlists
  {
    seq(|playlists|, i requires 0 <= i < |playlists| =>
      if playlists[i].id == playlistId
      then playlists[i].(tracks := WithoutId(playlists[i].tracks, trackId))
      else playlists[i])
  }

  lemma RemoveTrackFromPlaylistIdempotent(playlists: seq<Playlist>, playlistId: string, trackId: string)
    ensures var once := RemoveTrackFromPlaylist(playlists, playlistId, trackId);
      RemoveTrackFromPlaylist(once, playlistId, trackId) == once
  {
  }

  lemma RemoveTrackFromPlaylistKeepsDistinct(playlists: seq<Playlist>, playlistId: string, trackId: string)
    requires PlaylistTracksDistinct(playlists)
    ensures PlaylistTracksDistinct(RemoveTrackFromPlaylist(playlists, playlistId, trackId))
  {
    var r := RemoveTrackFromPlaylist(playlists, playlistId, trackId);
    forall p | p in r ensures DistinctIds(p.tracks) {
      var i :| 0 <= i < |r| && r[i] == p;
      assert playlists[i] in playlists;
      if playlists[i].id == playlistId {
        WithoutIdKeepsDistinct(playlists[i].tracks, trackId);
      }
    }
  }

  lemma AppendThenRemoveTrack(tracks: seq<Track>, track: Track)
    requires !HasId(tracks, track.id)
    ensures WithoutId(AppendIfAbsent(tracks, track), track.id) == tracks
  {
    WithoutIdAppend(tracks, [track], track.id);
  }

  /** Adding a track that the playlist lacked and then removing it restores the collection. */
  lemma AddThenRemoveTrack(playlists: seq<Playlist>, playlistId: string, track: Track)
    requires forall p :: p in playlists && p.id == playlistId ==> !HasId(p.tracks, track.id)
    ensures RemoveTrackFromPlaylist(AddTrackToPlaylist(playlists, playlistId, track), playlistId, track.id)
      == playlists
  {
    var added := AddTrackToPlaylist(playlists, playlistId, track);
    var r := RemoveTrackFromPlaylist(added, playlistId, track.id);
    forall i | 0 <= i < |playlists| ensures r[i] == playlists[i] {
      if playlists[i].id == playlistId {
        assert playlists[i] in playlists;
        AppendThenRemoveTrack(playlists[i].tracks, track);
        assert r[i].tracks == playlists[i].tracks;
      }
    }
  }
}

=== FILE: library_page.dfy ===
/** The library page's playlist dialog: a name that is empty after trimming
    is rejected before the store is touched. */
module LibraryPage {
  import opened Wrappers
  import opened Music
  import Library

  /** The characters `String.prototype.trim` strips: the ECMAScript
      WhiteSpace and LineTerminator code points. */
  predicate IsTrimmable(c: char) {
    var n := c as int;
    || n == 0x09 || n == 0x0A || n == 0x0B || n == 0x0C || n == 0x0D || n == 0x20
    || n == 0xA0 || n == 0x1680 || 0x2000 <= n <= 0x200A || n == 0x2028 || n == 0x2029
    || n == 0x202F || n == 0x205F || n == 0x3000 || n == 0xFEFF
  }

  predicate IsBlank(s: string) {
    forall i :: 0 <= i < |s| ==> IsTrimmable(s[i])
  }

  function TrimStart(s: string): (r: string)
    ensures |r| <= |s| && r == s[|s| - |r|..]
    ensures IsBlank(s[..|s| - |r|])
    ensures |r| > 0 ==> !IsTrimmable(r[0])
  {
    if |s| > 0 && IsTrimmable(s[0]) then TrimStart(s[1..]) else s
  }

  function TrimEnd(s: string): (r: string)
    ensures |r| <= |s| && r == s[..|r|]
    ensures IsBlank(s[|r|..])
    ensures |r| > 0 ==> !IsTrimmable(r[|r| - 1])
  {
    if |s| > 0 && IsTrimmable(s[|s| - 1]) then TrimEnd(s[..|s| - 1]) else s
  }

  /** `s.trim()`. */
  function Trim(s: string): string {
    TrimEnd(TrimStart(s))
  }

  /** Trimming leaves nothing exactly when every character is trimmable. */
  lemma TrimEmptyIffBlank(s: string)
    ensures Trim(s) == "" <==> IsBlank(s)
  {
    var t := TrimStart(s);
    if Trim(s) == "" {
      assert IsBlank(t[0..]);
      assert s == s[..|s| - |t|] + t;
    }
  }

  /** `handleCreatePlaylist`: a blank name is refused and nothing is created;
      any other name, untrimmed, creates a playlist with the typed description. */
  function HandleCreatePlaylist(playlists: seq<Playlist>, name: string, description: string,
                                stamp: nat, createdAt: string): (r: Option<Library.Created>)
    ensures r.None? <==> IsBlank(name)
    ensures r.Some? ==> r.value.playlists == playlists + [r.value.playlist]
    ensures r.Some? ==> r.value.playlist.name == name && r.value.playlist.description == Some(description)
    ensures r.Some? ==> r.value.playlist.tracks == [] && r.value.playlist.id == Library.PlaylistId(stamp)
    ensures r.Some? ==> r.value.playlist.coverUrl == None && r.value.playlist.createdAt == createdAt
  {
    TrimEmptyIffBlank(name);
    if Trim(name) == "" then None
    else Some(Library.CreatePlaylist(playlists, name, Some(description), stamp, createdAt))
  }
}

=== FILE: music.dfy ===
/** The record shapes shared by the stores and the catalog client, and the
    id-keyed views of a track list that both stores rely on. */
module Music {
  import opened Wrappers
  import opened Seqs

  /** A playable catalog item; its identity is `id`. `duration` is in milliseconds. */
  datatype Track = Track(
    id: string,
    name: string,
    artistName: string,
    albumName: string,
    artworkUrl: string,
    previewUrl: string,
    duration: nat,
    releaseDate: Option<string>)

  datatype Artist = Artist(id: string, name: string, imageUrl: Option<string>)

  datatype Album = Album(
    id: string,
    name: string,
    artistName: string,
    artworkUrl: string,
    releaseDate: Option<string>,
    trackCount: Option<nat>)

  datatype Playlist = Playlist(
    id: string,
    name: string,
    description: Option<string>,
    tracks: seq<Track>,
    coverUrl: Option<string>,
    createdAt: string)

  datatype PlayHistory = PlayHistory(track: Track, playedAt: string)

  /** `tracks.some(t => t.id === id)`. */
  predicate HasId(tracks: seq<Track>, id: string) {
    exists t :: t in tracks && t.id == id
  }

  /** No two entries share an id. */
  predicate DistinctIds(tracks: seq<Track>) {
    forall i, j :: 0 <= i < j < |tracks| ==> tracks[i].id != tracks[j].id
  }

  /** Number of entries carrying `id`. */
  function CountId(tracks: seq<Track>, id: string): nat {
    if |tracks| == 0 then 0
    else (if tracks[0].id == id then 1 else 0) + CountId(tracks[1..], id)
  }

  /** `tracks.filter(t => t.id !== id)`. */
  function WithoutId(tracks: seq<Track>, id: string): (r: seq<Track>)
    ensures !HasId(r, id)
    ensures forall t :: t in r <==> t in tracks && t.id != id
    ensures forall other :: other != id ==> (HasId(r, other) <==> HasId(tracks, other))
    ensures !HasId(tracks, id) ==> r == tracks
  {
    Filter(tracks, (t: Track) => t.id != id)
  }

  lemma {:induction false} CountIdAppend(a: seq<Track>, b: seq<Track>, id: string)
    ensures CountId(a + b, id) == CountId(a, id) + CountId(b, id)
  {
    if |a| > 0 {
      assert (a + b)[1..] == a[1..] + b;
      CountIdAppend(a[1..], b, id);
    } else {
      assert a + b == b;
    }
  }

  lemma {:induction false} CountIdPositive(tracks: seq<Track>, id: string)
    ensures CountId(tracks, id) > 0 <==> HasId(tracks, id)
  {
    if |tracks| > 0 {
      CountIdPositive(tracks[1..], id);
      assert tracks == [tracks[0]] + tracks[1..];
      if HasId(tracks, id) && tracks[0].id != id {
        var t :| t in tracks && t.id == id;
        assert t in tracks[1..];
      }
    }
  }

  lemma {:induction false} DistinctCountAtMostOne(tracks: seq<Track>, id: string)
    requires DistinctIds(tracks)
    ensures CountId(tracks, id) <= 1
  {
    if |tracks| > 0 {
      var rest := tracks[1..];
      assert DistinctIds(rest);
      DistinctCountAtMostOne(rest, id);
      if tracks[0].id == id {
        assert !HasId(rest, id);
        CountIdPositive(rest, id);
      }
    }
  }

  /** Filtering by any test never introduces a repeated id. */
  lemma {:induction false} FilterKeepsDistinct(tracks: seq<Track>, keep: Track -> bool)
    requires DistinctIds(tracks)
    ensures DistinctIds(Filter(tracks, keep))
  {
    if |tracks| > 0 {
      var rest := tracks[1..];
      assert DistinctIds(rest);
      FilterKeepsDistinct(rest, keep);
      var fr := Filter(rest, keep);
      if keep(tracks[0]) {
        var r := [tracks[0]] + fr;
        forall i, j | 0 <= i < j < |r| ensures r[i].id != r[j].id {
          if i == 0 {
            assert r[j] in rest;
            var m :| 0 <= m < |rest| && rest[m] == r[j];
            assert tracks[m + 1] == r[j];
          } else {
            assert r[i] == fr[i - 1] && r[j] == fr[j - 1];
          }
        }
      }
    }
  }

  lemma WithoutIdKeepsDistinct(tracks: seq<Track>, id: string)
    requires DistinctIds(tracks)
    ensures DistinctIds(WithoutId(tracks, id))
  {
    FilterKeepsDistinct(tracks, (t: Track) => t.id != id);
  }

  /** The filter keeps the surviving entries in their original relative order:
      it distributes over concatenation. */
  lemma WithoutIdAppend(a: seq<Track>, b: seq<Track>, id: string)
    ensures WithoutId(a + b, id) == WithoutId(a, id) + WithoutId(b, id)
  {
    FilterAppend(a, b, (t: Track) => t.id != id);
  }

  /** Removing by id drops exactly the entries carrying that id. */
  lemma {:induction false} WithoutIdLength(tracks: seq<Track>, id: string)
    ensures |WithoutId(tracks, id)| == |tracks| - CountId(tracks, id)
  {
    if |tracks| > 0 {
      assert tracks == [tracks[0]] + tracks[1..];
      WithoutIdAppend([tracks[0]], tracks[1..], id);
      WithoutIdLength(tracks[1..], id);
    }
  }
}

=== FILE: player.dfy ===
/** The playback engine's state machine: the current track, the play queue
    with its index, the transport flag and the capped play history. The single
    audio element is abstracted to whether it exists yet; its media events,
    volume and position are not part of this model. */
module Player {
  import opened Wrappers
  import opened Seqs
  import opened Music

  /** Most entries the play history keeps. */
  const HistoryCap: nat := 50

  datatype PlayerState = PlayerState(
    audioPresent: bool,
    currentTrack: Option<Track>,
    isPlaying: bool,
    queue: seq<Track>,
    currentIndex: nat,
    playHistory: seq<PlayHistory>)

  function Min(a: nat, b: nat): nat {
    if a < b then a else b
  }

  /** The state before the audio element exists: nothing loaded, empty queue. */
  function Initial(): PlayerState {
    PlayerState(false, None, false, [], 0, [])
  }

  /** The mount effect that creates the audio element. */
  function MountAudio(s: PlayerState): (r: PlayerState)
    ensures r.audioPresent
    ensures r.(audioPresent := s.audioPresent) == s
  {
    s.(audioPresent := true)
  }

  /** `currentIndex` names a queue position whenever the queue is non-empty. */
  predicate IndexInQueue(s: PlayerState) {
    |s.queue| > 0 ==> s.currentIndex < |s.queue|
  }

  predicate Valid(s: PlayerState) {
    IndexInQueue(s) && |s.playHistory| <= HistoryCap
  }

  /** Binds `track` as current, starts playback and records it at the front
      of the history; without the audio element nothing happens. */
  function PlayTrack(s: PlayerState, track: Track, playedAt: string): (r: PlayerState)
    ensures !s.audioPresent ==> r == s
    ensures r.queue == s.queue && r.currentIndex == s.currentIndex && r.audioPresent == s.audioPresent
    ensures s.audioPresent ==> r.currentTrack == Some(track) && r.isPlaying
    ensures s.audioPresent ==>
      && |r.playHistory| == Min(|s.playHistory| + 1, HistoryCap)
      && r.playHistory[0] == PlayHistory(track, playedAt)
      && forall i :: 1 <= i < |r.playHistory| ==> r.playHistory[i] == s.playHistory[i - 1]
    ensures Valid(s) ==> Valid(r)
  {
    if !s.audioPresent then s
    else
      s.(currentTrack := Some(track),
         isPlaying := true,
         playHistory := [PlayHistory(track, playedAt)] + Take(s.playHistory, HistoryCap - 1))
  }

  function PauseTrack(s: PlayerState): (r: PlayerState)
    ensures !r.isPlaying
    ensures r.(isPlaying := s.isPlaying) == s
  {
    s.(isPlaying := false)
  }

  function ResumeTrack(s: PlayerState): (r: PlayerState)
    ensures r.isPlaying
    ensures r.(isPlaying := s.isPlaying) == s
  {
    s.(isPlaying := true)
  }

  lemma PauseResumeRoundTrip(s: PlayerState)
    ensures s.isPlaying ==> ResumeTrack(PauseTrack(s)) == s
    ensures !s.isPlaying ==> PauseTrack(ResumeTrack(s)) == s
  {
  }

  /** Resuming with nothing loaded still raises the transport flag. */
  lemma ResumeWithoutTrack()
    ensures var r := ResumeTrack(MountAudio(Initial()));
      r.isPlaying && r.currentTrack == None
  {
  }

  /** The queue position after `i` in a queue of length `n`, wrapping to the start. */
  function NextPosition(i: nat, n: nat): (j: nat)
    requires n > 0
    ensures j < n
    ensures i < n ==> j == if i == n - 1 then 0 else i + 1
  {
    (i + 1) % n
  }

  /** Advances to the next queue position, wrapping to the start. */
  function NextTrack(s: PlayerState, playedAt: string): (r: PlayerState)
    ensures |s.queue| == 0 ==> r == s
    ensures |s.queue| > 0 ==>
      && r.queue == s.queue
      && r.currentIndex < |s.queue|
      && r.currentIndex == (s.currentIndex + 1) % |s.queue|
    ensures |s.queue| > 0 && IndexInQueue(s) ==>
      r.currentIndex == if s.currentIndex == |s.queue| - 1 then 0 else s.currentIndex + 1
    ensures |s.queue| > 0 && s.audioPresent ==>
      && r.currentTrack == Some(s.queue[r.currentIndex])
      && r.isPlaying
      && |r.playHistory| == Min(|s.playHistory| + 1, HistoryCap)
      && r.playHistory[0] == PlayHistory(s.queue[r.currentIndex], playedAt)
      && (forall i :: 1 <= i < |r.playHistory| ==> r.playHistory[i] == s.playHistory[i - 1])
      && r == s.(currentIndex := r.currentIndex, currentTrack := r.currentTrack,
                 isPlaying := true, playHistory := r.playHistory)
    ensures |s.queue| > 0 && !s.audioPresent ==> r == s.(currentIndex := r.currentIndex)
    ensures Valid(s) ==> Valid(r)
  {
    if |s.queue| == 0 then s
    else
      var next := NextPosition(s.currentIndex, |s.queue|);
      PlayTrack(s.(currentIndex := next), s.queue[next], playedAt)
  }

  /** Steps back one queue position, wrapping from the start to the end. With
      the audio element present the source plays the track at the new position,
      so that position must exist; without it the track is never looked up. */
  function PreviousTrack(s: PlayerState, playedAt: string): (r: PlayerState)
    requires s.audioPresent && |s.queue| > 0 ==> s.currentIndex <= |s.queue|
    ensures |s.queue| == 0 ==> r == s
    ensures |s.queue| > 0 ==>
      && r.queue == s.queue
      && r.currentIndex == if s.currentIndex == 0 then |s.queue| - 1 else s.currentIndex - 1
    ensures |s.queue| > 0 && s.currentIndex <= |s.queue| ==> r.currentIndex < |s.queue|
    ensures |s.queue| > 0 && s.audioPresent ==>
      && r.currentTrack == Some(s.queue[r.currentIndex])
      && r.isPlaying
      && |r.playHistory| == Min(|s.playHistory| + 1, HistoryCap)
      && r.playHistory[0] == PlayHistory(s.queue[r.currentIndex], playedAt)
      && (forall i :: 1 <= i < |r.playHistory| ==> r.playHistory[i] == s.playHistory[i - 1])
      && r == s.(currentIndex := r.currentIndex, currentTrack := r.currentTrack,
                 isPlaying := true, playHistory := r.playHistory)
    ensures |s.queue| > 0 && !s.audioPresent ==> r == s.(currentIndex := r.currentIndex)
    ensures Valid(s) ==> Valid(r)
  {
    if |s.queue| == 0 then s
    else
      var previous := if s.currentIndex == 0 then |s.queue| - 1 else s.currentIndex - 1;
      if !s.audioPresent then s.(currentIndex := previous)
      else PlayTrack(s.(currentIndex := previous), s.queue[previous], playedAt)
  }

  /** The state after the mount effect is valid, and every valid state meets
      `PreviousTrack`'s precondition. */
  lemma ValidStatesAllowPreviousTrack(s: PlayerState)
    ensures Valid(MountAudio(Initial()))
    ensures Valid(s) ==> (s.audioPresent && |s.queue| > 0 ==> s.currentIndex <= |s.queue|)
  {
  }

  /** Stepping forward then back returns to the original position and track. */
  lemma NextThenPrevious(s: PlayerState, at1: string, at2: string)
    requires IndexInQueue(s) && |s.queue| > 0
    ensures var r := PreviousTrack(NextTrack(s, at1), at2);
      && r.currentIndex == s.currentIndex
      && r.queue == s.queue
      && (s.audioPresent ==> r.currentTrack == Some(s.queue[s.currentIndex]))
  {
  }

  /** Stepping back then forward returns to the original position and track. */
  lemma PreviousThenNext(s: PlayerState, at1: string, at2: string)
    requires IndexInQueue(s) && |s.queue| > 0
    ensures var r := NextTrack(PreviousTrack(s, at1), at2);
      && r.currentIndex == s.currentIndex
      && r.queue == s.queue
      && (s.audioPresent ==> r.currentTrack == Some(s.queue[s.currentIndex]))
  {
  }

  /** The end-of-track event on an empty queue changes nothing, so the
      transport flag stays raised although playback has stopped. */
  lemma EndedOnEmptyQueue(s: PlayerState, playedAt: string)
    requires |s.queue| == 0 && s.isPlaying
    ensures NextTrack(s, playedAt).isPlaying
  {
  }

  /** Replaces the queue, moves to `startIndex` and plays the track there.
      Without the audio element the track is never looked up, so any index is
      accepted; with it, the index must name a track. */
  function AddToQueue(s: PlayerState, tracks: seq<Track>, startIndex: nat, playedAt: string): (r: PlayerState)
    requires s.audioPresent ==> startIndex < |tracks|
    ensures r.queue == tracks && r.currentIndex == startIndex
    ensures s.audioPresent ==>
      && r.currentTrack == Some(tracks[startIndex])
      && r.isPlaying
      && |r.playHistory| == Min(|s.playHistory| + 1, HistoryCap)
      && r.playHistory[0] == PlayHistory(tracks[startIndex], playedAt)
      && (forall i :: 1 <= i < |r.playHistory| ==> r.playHistory[i] == s.playHistory[i - 1])
      && r == s.(queue := tracks, currentIndex := startIndex, currentTrack := r.currentTrack,
                 isPlaying := true, playHistory := r.playHistory)
    ensures !s.audioPresent ==> r == s.(queue := tracks, currentIndex := startIndex)
    ensures Valid(s) && startIndex < |tracks| ==> Valid(r)
  {
    var s' := s.(queue := tracks, currentIndex := startIndex);
    if !s.audioPresent then s' else PlayTrack(s', tracks[startIndex], playedAt)
  }

  /** Reorders the queue by `order` (the outcome of the source's random sort,
      given as a permutation of queue positions), moves to the front and plays
      the new first track. */
  function Shuffle(s: PlayerState, order: seq<nat>, playedAt: string): (r: PlayerState)
    requires IsPermutation(order, |s.queue|)
    ensures |r.queue| == |s.queue| && multiset(r.queue) == multiset(s.queue)
    ensures |s.queue| == 0 ==> r == s
    ensures |s.queue| > 0 ==> r.currentIndex == 0
    ensures |s.queue| > 0 ==> forall i :: 0 <= i < |order| ==> r.queue[i] == s.queue[order[i]]
    ensures |s.queue| > 0 && s.audioPresent ==>
      && r.currentTrack == Some(r.queue[0])
      && r.isPlaying
      && |r.playHistory| == Min(|s.playHistory| + 1, HistoryCap)
      && r.playHistory[0] == PlayHistory(r.queue[0], playedAt)
      && (forall i :: 1 <= i < |r.playHistory| ==> r.playHistory[i] == s.playHistory[i - 1])
      && r == s.(queue := r.queue, currentIndex := 0, currentTrack := r.currentTrack,
                 isPlaying := true, playHistory := r.playHistory)
    ensures |s.queue| > 0 && !s.audioPresent ==> r == s.(queue := r.queue, currentIndex := 0)
    ensures Valid(s) ==> Valid(r)
  {
    if |s.queue| == 0 then s
    else
      var shuffled := Permute(s.queue, order);
      PermutePreservesMultiset(s.queue, order);
      PlayTrack(s.(queue := shuffled, currentIndex := 0), shuffled[0], playedAt)
  }

  /** The tracks of a history, most recent first. */
  function HistoryTracks(history: seq<PlayHistory>): (r: seq<Track>)
    ensures |r| == |history|
    ensures forall i :: 0 <= i < |history| ==> r[i] == history[i].track
  {
    seq(|history|, i requires 0 <= i < |history| => history[i].track)
  }

  /** Plays `tracks` one after another. */
  function PlayAll(s: PlayerState, tracks: seq<Track>, playedAt: string): PlayerState
    decreases |tracks|
  {
    if |tracks| == 0 then s else PlayAll(PlayTrack(s, tracks[0], playedAt), tracks[1..], playedAt)
  }

  lemma PlayTrackHistoryTracks(s: PlayerState, track: Track, playedAt: string)
    requires s.audioPresent
    ensures HistoryTracks(PlayTrack(s, track, playedAt).playHistory)
      == Take([track] + HistoryTracks(s.playHistory), HistoryCap)
  {
  }

  /** Recording `tracks[0]` and then the rest, newest first, is the same as
      recording all of `tracks` newest first. */
  lemma TakeReverseStep(tracks: seq<Track>, older: seq<Track>)
    requires |tracks| > 0
    ensures Take(Reverse(tracks[1..]) + Take([tracks[0]] + older, HistoryCap), HistoryCap)
      == Take(Reverse(tracks) + older, HistoryCap)
  {
    TakeTakeCons(Reverse(tracks[1..]), tracks[0], older, HistoryCap);
    assert Reverse(tracks) == Reverse(tracks[1..]) + [tracks[0]];
  }

  /** After a run of plays the history lists the played tracks newest first,
      followed by the older history, cut to the cap. */
  lemma {:induction false} PlayAllHistory(s: PlayerState, tracks: seq<Track>, playedAt: string)
    requires s.audioPresent && |s.playHistory| <= HistoryCap
    ensures HistoryTracks(PlayAll(s, tracks, playedAt).playHistory)
      == Take(Reverse(tracks) + HistoryTracks(s.playHistory), HistoryCap)
    decreases |tracks|
  {
    if |tracks| == 0 {
      assert Reverse(tracks) + HistoryTracks(s.playHistory) == HistoryTracks(s.playHistory);
    } else {
      var s1 := PlayTrack(s, tracks[0], playedAt);
      PlayTrackHistoryTracks(s, tracks[0], playedAt);
      PlayAllHistory(s1, tracks[1..], playedAt);
      TakeReverseStep(tracks, HistoryTracks(s.playHistory));
    }
  }

  /** Playing 51 different tracks from a fresh start leaves a full history
      that no longer holds the first of them. */
  lemma FiftyFirstPlaysEvictFirst(tracks: seq<Track>, playedAt: string)
    requires |tracks| == HistoryCap + 1
    requires forall i, j :: 0 <= i < j < |tracks| ==> tracks[i] != tracks[j]
    ensures var h := PlayAll(MountAudio(Initial()), tracks, playedAt).playHistory;
      && |h| == HistoryCap
      && h[0].track == tracks[HistoryCap]
      && forall i :: 0 <= i < |h| ==> h[i].track != tracks[0]
  {
    var s := MountAudio(Initial());
    PlayAllHistory(s, tracks, playedAt);
    var h := PlayAll(s, tracks, playedAt).playHistory;
    var ht := HistoryTracks(h);
    assert HistoryTracks(s.playHistory) == [];
    assert Reverse(tracks) + [] == Reverse(tracks);
    assert ht == Reverse(tracks)[..HistoryCap];
    forall i | 0 <= i < |h| ensures h[i].track != tracks[0] {
      assert h[i].track == ht[i] == tracks[HistoryCap - i];
    }
  }
}

=== FILE: seqs.dfy ===
/** Sequence operations the stores are built from: JavaScript's
    `Array.prototype.filter`, `slice(0, n)`, and reordering by a permutation
    of positions. */
module Seqs {

  /** `s.filter(keep)`: the elements satisfying `keep`, in their original order. */
  function Filter<T(!new)>(s: seq<T>, keep: T -> bool): (r: seq<T>)
    ensures |r| <= |s|
    ensures forall x :: x in r <==> x in s && keep(x)
    ensures (forall i :: 0 <= i < |s| ==> keep(s[i])) ==> r == s
  {
    if |s| == 0 then []
    else if keep(s[0]) then [s[0]] + Filter(s[1..], keep)
    else Filter(s[1..], keep)
  }

  /** Filtering distributes over concatenation, so no two kept elements swap places. */
  lemma {:induction false} FilterAppend<T(!new)>(a: seq<T>, b: seq<T>, keep: T -> bool)
    ensures Filter(a + b, keep) == Filter(a, keep) + Filter(b, keep)
  {
    if |a| > 0 {
      assert (a + b)[1..] == a[1..] + b;
      FilterAppend(a[1..], b, keep);
    } else {
      assert a + b == b;
    }
  }

  /** `s.slice(0, n)`: at most the first `n` elements. */
  function Take<T>(s: seq<T>, n: nat): (r: seq<T>)
    ensures |r| == if |s| < n then |s| else n
    ensures r == s[..|r|]
  {
    if |s| <= n then s else s[..n]
  }

  lemma TakeTake<T>(a: seq<T>, b: seq<T>, n: nat)
    ensures Take(a + Take(b, n), n) == Take(a + b, n)
  {
    var l := Take(a + b, n);
    var k := Take(a + Take(b, n), n);
    assert |k| == |l|;
    forall i | 0 <= i < |k| ensures k[i] == l[i] {
      if i >= |a| {
        assert k[i] == Take(b, n)[i - |a|];
      }
    }
  }

  /** Putting `x` in front of `b` before cutting, then appending to `a`, cuts
      the same prefix as appending `a + [x]` to `b` directly. */
  lemma TakeTakeCons<T>(a: seq<T>, x: T, b: seq<T>, n: nat)
    ensures Take(a + Take([x] + b, n), n) == Take((a + [x]) + b, n)
  {
    TakeTake(a, [x] + b, n);
    assert a + ([x] + b) == (a + [x]) + b;
  }

  function Reverse<T>(s: seq<T>): (r: seq<T>)
    ensures |r| == |s|
    ensures forall i :: 0 <= i < |s| ==> r[i] == s[|s| - 1 - i]
  {
    if |s| == 0 then [] else Reverse(s[1..]) + [s[0]]
  }

  /** The positions `0 .. n-1` in ascending order. */
  function Range(n: nat): (r: seq<nat>)
    ensures |r| == n
    ensures forall i :: 0 <= i < n ==> r[i] == i
  {
    seq(n, i => i)
  }

  /** `order` lists every position of an `n`-element sequence exactly once. */
  predicate IsPermutation(order: seq<nat>, n: nat) {
    && |order| == n
    && (forall i :: 0 <= i < |order| ==> order[i] < n)
    && multiset(order) == multiset(Range(n))
  }

  /** The sequence whose `i`-th element is `s[order[i]]`. */
  function Permute<T>(s: seq<T>, order: seq<nat>): (r: seq<T>)
    requires forall i :: 0 <= i < |order| ==> order[i] < |s|
    ensures |r| == |order|
    ensures forall i :: 0 <= i < |order| ==> r[i] == s[order[i]]
  {
    seq(|order|, i requires 0 <= i < |order| => s[order[i]])
  }

  /** Dropping the entry that names the last position leaves a permutation of
      the remaining positions. */
  lemma DropLastPosition(order: seq<nat>, n: nat, k: nat)
    requires IsPermutation(order, n + 1)
    requires k < |order| && order[k] == n
    ensures IsPermutation(order[..k] + order[k + 1..], n)
  {
    var order' := order[..k] + order[k + 1..];
    assert order == order[..k] + [n] + order[k + 1..];
    assert Range(n + 1) == Range(n) + [n];
    calc {
      multiset(order');
      multiset(order) - multiset{n};
      multiset(Range(n + 1)) - multiset{n};
      multiset(Range(n));
    }
    forall i | 0 <= i < |order'| ensures order'[i] < n {
      assert order'[i] in multiset(Range(n));
      assert order'[i] in Range(n);
    }
  }

  /** The position of `order` that names position `n - 1`. */
  lemma PositionOfLast(order: seq<nat>, n: nat) returns (k: nat)
    requires n > 0 && IsPermutation(order, n)
    ensures k < |order| && order[k] == n - 1
  {
    assert Range(n) == Range(n - 1) + [n - 1];
    assert n - 1 in multiset(Range(n));
    assert n - 1 in multiset(order);
    k :| 0 <= k < |order| && order[k] == n - 1;
  }

  lemma PermuteDropLast<T>(s: seq<T>, order: seq<nat>, k: nat)
    requires |s| > 0 && IsPermutation(order, |s|) && k < |order| && order[k] == |s| - 1
    requires IsPermutation(order[..k] + order[k + 1..], |s| - 1)
    ensures var p' := Permute(s[..|s| - 1], order[..k] + order[k + 1..]);
      Permute(s, order) == p'[..k] + [s[|s| - 1]] + p'[k..]
  {
    var order' := order[..k] + order[k + 1..];
    var s' := s[..|s| - 1];
    var p := Permute(s, order);
    var p' := Permute(s', order');
    var q := p'[..k] + [s[|s| - 1]] + p'[k..];
    assert |q| == |p|;
    forall i | 0 <= i < |p| ensures p[i] == q[i] {
      if i < k {
        assert order'[i] == order[i];
        assert q[i] == p'[i];
      } else if k < i {
        assert order'[i - 1] == order[i];
        assert q[i] == p'[i - 1];
      }
    }
  }

  /** Splicing the last element of `s` into a sequence with the multiset of
      the rest of `s` gives the multiset of `s`. */
  lemma SpliceMultiset<T>(spliced: seq<T>, p: seq<T>, k: nat, s: seq<T>)
    requires |s| > 0 && k <= |p| && spliced == p[..k] + [s[|s| - 1]] + p[k..]
    requires multiset(p) == multiset(s[..|s| - 1])
    ensures multiset(spliced) == multiset(s)
  {
    assert p == p[..k] + p[k..];
    assert s == s[..|s| - 1] + [s[|s| - 1]];
    calc {
      multiset(spliced);
      multiset(p[..k]) + multiset{s[|s| - 1]} + multiset(p[k..]);
      multiset(p) + multiset{s[|s| - 1]};
    }
  }

  /** Reordering by a permutation of positions keeps the same elements with the
      same multiplicities. */
  lemma {:induction false} PermutePreservesMultiset<T>(s: seq<T>, order: seq<nat>)
    requires IsPermutation(order, |s|)
    ensures multiset(Permute(s, order)) == multiset(s)
  {
    if |s| == 0 {
      return;
    }
    var last := |s| - 1;
    var k := PositionOfLast(order, |s|);
    var order' := order[..k] + order[k + 1..];
    DropLastPosition(order, last, k);
    PermutePreservesMultiset(s[..last], order');
    PermuteDropLast(s, order, k);
    SpliceMultiset(Permute(s, order), Permute(s[..last], order'), k, s);
  }
}

=== FILE: song_card.dfy ===
/** The per-song row's own logic: the `m:ss` duration text, the like
    toggle and the "is this the current track" highlight test. */
module SongCard {
  import opened Wrappers
  import opened Decimal
  import opened Music
  import Library
  import Player

  const MillisPerMinute: nat := 60000
  const MillisPerSecond: nat := 1000

  /** The whole minutes and the leftover whole seconds of `ms` milliseconds. */
  function DurationFields(ms: nat): (f: (nat, nat))
    ensures f.1 < 60
    ensures f.0 * MillisPerMinute + f.1 * MillisPerSecond <= ms
    ensures ms < f.0 * MillisPerMinute + f.1 * MillisPerSecond + MillisPerSecond
  {
    var minutes := ms / MillisPerMinute;
    var rest := ms % MillisPerMinute;
    var seconds := rest / MillisPerSecond;
    assert ms == minutes * MillisPerMinute + rest;
    assert rest == seconds * MillisPerSecond + rest % MillisPerSecond;
    (minutes, seconds)
  }

  /** The fields are the only split of `ms` into minutes and seconds below 60
      that brackets it to the second. */
  lemma DurationFieldsUnique(ms: nat, minutes: nat, seconds: nat)
    requires seconds < 60
    requires minutes * MillisPerMinute + seconds * MillisPerSecond <= ms
    requires ms < minutes * MillisPerMinute + seconds * MillisPerSecond + MillisPerSecond
    ensures DurationFields(ms) == (minutes, seconds)
  {
    var f := DurationFields(ms);
    var a := minutes * 60 + seconds;
    var b := f.0 * 60 + f.1;
    assert a * 1000 <= ms < a * 1000 + 1000;
    assert b * 1000 <= ms < b * 1000 + 1000;
    assert a == b;
  }

  /** `s.padStart(width, fill)` for a one-character `fill`. */
  function PadStart(s: string, width: nat, fill: char): (r: string)
    ensures |r| == if |s| < width then width else |s|
    ensures r[|r| - |s|..] == s
    ensures forall i :: 0 <= i < |r| - |s| ==> r[i] == fill
  {
    if |s| >= width then s else seq(width - |s|, _ => fill) + s
  }

  /** The text `Math.floor(ms / 60000) + ":" + String(seconds).padStart(2, "0")`. */
  function FormatDuration(ms: nat): (text: string)
    ensures |text| >= 4 && text[|text| - 3] == ':'
    ensures Canonical(text[..|text| - 3]) && AllDigits(text[|text| - 2..])
    ensures ToNat(text[..|text| - 3]) == DurationFields(ms).0
    ensures ToNat(text[|text| - 2..]) == DurationFields(ms).1
  {
    var (minutes, seconds) := DurationFields(ms);
    var m := FromNat(minutes);
    var s := PadStart(FromNat(seconds), 2, '0');
    SecondsLabel(seconds);
    ToNatFromNat(minutes);
    var text := m + ":" + s;
    assert text[..|text| - 3] == m;
    assert text[|text| - 2..] == s;
    text
  }

  /** The seconds part is exactly two digits reading back as the seconds. */
  lemma SecondsLabel(seconds: nat)
    requires seconds < 60
    ensures var s := PadStart(FromNat(seconds), 2, '0');
      |s| == 2 && AllDigits(s) && ToNat(s) == seconds
  {
    var d := FromNat(seconds);
    var s := PadStart(d, 2, '0');
    ToNatFromNat(seconds);
    if seconds < 10 {
      assert s == ['0'] + d;
      assert s[..1] == ['0'];
      assert ToNat(s[..1]) == 0 by {
        assert ToNat(s[..1]) == 10 * ToNat(s[..1][..0]) + DigitValue('0');
      }
    } else {
      assert s == d;
    }
  }

  /** The catalog's default duration renders as half a minute. */
  lemma DefaultDurationLabel()
    ensures FormatDuration(30000) == "0:30"
  {
    assert DurationFields(30000) == (0, 30);
    assert FromNat(0) == "0";
    assert FromNat(3) == "3";
    assert FromNat(30) == "30";
  }

  /** The heart button: unlike the track if it is liked, like it otherwise. */
  function HandleLike(liked: seq<Track>, track: Track): (r: seq<Track>)
    ensures Library.IsLiked(r, track.id) <==> !Library.IsLiked(liked, track.id)
    ensures forall other :: other != track.id ==> (Library.IsLiked(r, other) <==> Library.IsLiked(liked, other))
    ensures DistinctIds(liked) ==> DistinctIds(r)
    ensures !Library.IsLiked(liked, track.id) ==> r == [track] + liked
    ensures Library.IsLiked(liked, track.id) ==> r == WithoutId(liked, track.id)
  {
    if Library.IsLiked(liked, track.id) then
      var r := Library.RemoveLikedSong(liked, track.id);
      assert DistinctIds(liked) ==> DistinctIds(r) by {
        if DistinctIds(liked) { Library.RemoveLikedSongKeepsDistinct(liked, track.id); }
      }
      r
    else
      var r := Library.AddLikedSong(liked, track);
      assert DistinctIds(liked) ==> DistinctIds(r) by {
        if DistinctIds(liked) { Library.AddLikedSongKeepsDistinct(liked, track); }
      }
      r
  }

  /** Pressing the heart twice on a song that was not liked changes nothing. */
  lemma HandleLikeTwice(liked: seq<Track>, track: Track)
    requires !Library.IsLiked(liked, track.id)
    ensures HandleLike(HandleLike(liked, track), track) == liked
  {
    Library.AddThenRemoveLikedSong(liked, track);
  }

  /** `currentTrack?.id === track.id`. */
  predicate IsCurrentTrack(current: Option<Track>, track: Track) {
    current.Some? && current.value.id == track.id
  }

  /** Once a track is played, exactly the rows showing its id are highlighted;
      before anything is played no row is. */
  lemma PlayedTrackIsCurrent(s: Player.PlayerState, played: Track, playedAt: string, row: Track)
    ensures !IsCurrentTrack(Player.Initial().currentTrack, row)
    ensures s.audioPresent ==>
      (IsCurrentTrack(Player.PlayTrack(s, played, playedAt).currentTrack, row) <==> row.id == played.id)
  {
  }
}

=== FILE: wrappers.dfy ===
/** Optional values: JavaScript's `undefined`/missing fields on the catalog
    boundary and the `?` members of the record types. */
module Wrappers {

  datatype Option<+T> = None | Some(value: T)
}
